=== FILE: README.md ===
# Chess rule engine, modelled in Dafny

A model of the rule engine of a small two-player chess game (`main.cpp`): the
8x8 board of pieces, the starting layout, the move legality check (Pawn, Rook
and Bishop only), the list of legal destinations shown for a selected piece,
moving a piece with one point per capture, the alternation of turns, and the
two-click protocol by which a player selects a piece and then its destination.

The board is `seq<seq<Piece>>` read as `board[y][x]`, with `x` the column and
`y` the row; White starts on rows 0 and 1 and its pawns advance towards larger
`y`. Everything is a pure function over immutable values: a click maps one
`GameState` to the next.

Files, one module each:

- `pieces.dfy` (`Pieces`): piece kinds, colours, the `Piece` value, the empty square.
- `squares.dfy` (`Squares`): coordinates 0..7, squares, and the plane geometry
  of paths ("strictly between on a line or diagonal") and of row-major order.
- `board.dfy` (`Boards`): the board, single-square update, piece count, and the
  starting layout.
- `rules.dfy` (`Rules`): `IsMoveValid`, written branch for branch like the game's
  check, with the Rook and Bishop scans as recursive predicates that step like
  the game's loops; a separate rule table stated over the geometry; proofs that
  the two agree.
- `destinations.dfy` (`Destinations`): the list of legal destinations.
- `game.dfy` (`Game`): players and scores, turns, moving a piece, the click
  protocol, and the invariant every reachable game state keeps.
- `scenarios.dfy` (`Scenarios`): concrete positions.
- `openings.dfy` (`Openings`): the opening double step played through two clicks.

Three behaviours of the code that a reader might not expect, all kept by the
model:

- The two lines placing King and Queen carry a comment saying they were
  swapped. The code puts the Queen on column 3 and the King on column 4, which
  is the standard layout, and so does the model.
- Moving a piece onto its own square (never legal, so never reached through
  clicks) writes the destination first and then clears the source. The square
  ends up empty, and `MovePiece` states exactly that.
- A pawn whose colour is `None` is given direction -1, as the conditional in the
  code does; no board the game produces holds one.

## Model

| member | source | states |
|---|---|---|
| Boards.InitialLayout | main.cpp:133-166 | White on rows 0-1, Black on rows 6-7, rows 2-5 empty; the back rows hold Rook, Knight, Bishop, Queen, King, Bishop, Knight, Rook and rows 1 and 6 hold pawns |
| Boards.InitialLayoutMirrored | main.cpp:133-166 | the starting position is symmetric: square (x, y) and square (x, 7 - y) hold the same kind of piece |
| Boards.InitialBoardWellFormed | main.cpp:133-166 | every square of the starting position has a kind and a colour, or neither |
| Boards.InitialCount | main.cpp:133-166 | the game starts with exactly 32 pieces on the board |
| Boards.PutCount | main.cpp:279-280 | writing one square changes the piece count only by what that square loses and gains |
| Rules.ColumnClearIff | main.cpp:206-210 | the rook's vertical scan succeeds iff every square of the column in the scanned range is empty |
| Rules.RowClearIff | main.cpp:218-222 | the rook's horizontal scan succeeds iff every square of the row in the scanned range is empty |
| Rules.DiagonalClearIff | main.cpp:236-244 | the bishop's scan terminates, and succeeds iff every square its cursor must still pass before reaching the destination is empty |
| Rules.DiagonalPathIsAheadOfCursor | main.cpp:236-240 | started one step from the source, the bishop's cursor visits exactly the squares strictly between source and destination on the diagonal |
| Rules.PawnMoves | main.cpp:173-199 | a pawn moves straight one row forward onto an empty square, or two rows from its home row over an empty square onto an empty one, or diagonally one row forward onto a piece of another colour; nothing else |
| Rules.RookMoves | main.cpp:202-230 | a rook move is legal iff source and destination share a row or column, every square strictly between is empty whatever its colour, and the destination holds no piece of the rook's colour |
| Rules.BishopMoves | main.cpp:233-253 | a bishop move is legal iff the column and row distances are equal, every square strictly between on the diagonal is empty, and the destination holds no piece of the bishop's colour |
| Rules.MoveRules | main.cpp:168-256 | the legality check agrees with the rule table for every board and every pair of squares |
| Rules.UnimplementedPiecesNeverMove | main.cpp:255 | King, Queen and Knight moves, and moves from an empty square, are never legal |
| Rules.NullMoveIllegal | main.cpp:168-256 | no piece may move to its own square |
| Rules.PawnNeverCapturesStraight | main.cpp:177-189 | a legal straight pawn move always lands on an empty square |
| Rules.PawnDoubleStep | main.cpp:181-189 | on every board, a White pawn on row 1 may advance to row 3, and a Black pawn on row 6 to row 4, exactly when both squares ahead of it are empty |
| Rules.PawnAdvances | main.cpp:173-199 | a legal pawn move goes at most one column sideways and one or two rows forward: towards larger rows for White, smaller rows for every other colour |
| Rules.LegalMoveNeverTakesOwnPiece | main.cpp:168-256 | a legal move starts from an occupied square and never lands on a piece of the mover's colour |
| Destinations.RowMoves | main.cpp:261-265 | the inner scan lists, left to right, exactly the legal destinations in its row from its starting column on |
| Destinations.MovesFrom | main.cpp:260-266 | the outer scan lists, row by row, exactly the legal destinations from its starting row on |
| Destinations.CalculateValidMoves | main.cpp:258-267 | the destinations shown are exactly the squares the legality check accepts, in row-major order, independent of what was shown before |
| Destinations.ValidMovesDistinct | main.cpp:258-267 | no destination is listed twice |
| Destinations.ValidMovesFollowRules | main.cpp:258-267 | a square is listed iff the rule table allows the move to it |
| Game.AddScore | main.cpp:52-54 | crediting points raises the score by exactly that many and keeps the player's colour |
| Game.SwitchTurn | main.cpp:283-285 | switching always hands the move to the other player |
| Game.SwitchTurnTwice | main.cpp:283-285 | switching twice gives the move back |
| Game.NewGame | main.cpp:91-96 | the game opens on the starting layout with White to move, both scores 0 and nothing selected |
| Game.MovePiece | main.cpp:269-281 | the destination receives the moving piece, the source is emptied, every other square is unchanged, and the player to move gains one point iff the destination held a piece of another colour; the other player is unchanged |
| Game.MovePieceCount | main.cpp:269-281 | a move removes exactly the piece that stood on the destination, if any, so the piece count never grows |
| Game.SelectSquare | main.cpp:300-308 | a first click selects the square iff it holds a piece of the current player's colour, then lists that piece's legal destinations; board, turn and scores do not change |
| Game.ChooseDestination | main.cpp:309-317 | a second click clears the selection and its destinations; the turn passes iff the move is legal, and board and scores change only then, as `MovePiece` changes them |
| Game.Click | main.cpp:299-317 | a first click selects the clicked square iff it holds a piece of the current player's colour, and then lists exactly its legal destinations; a second click always deselects; the turn changes iff a selected piece makes a legal move, and then board and scores change exactly as moving that piece does; otherwise the board never changes |
| Game.NewGameInvariant | main.cpp:91-96 | the opening state satisfies the game invariant: well-formed squares, players keeping their colours, scores plus pieces on the board equal 32, selection consistent with its destinations |
| Game.LegalMoveScoresCaptures | main.cpp:273-276 | for a legal move, a point is scored exactly when the destination is occupied |
| Game.MovePieceKeepsWellFormed | main.cpp:278-280 | moving a piece writes only well-formed squares |
| Game.LegalMoveKeepsAccounts | main.cpp:273-280 | a legal move keeps "scores plus pieces on the board equal 32": it either scores nothing and keeps the count or scores one and removes one piece |
| Game.SelectSquarePreservesInvariant | main.cpp:300-308 | a first click keeps the game invariant |
| Game.ChooseDestinationPreservesInvariant | main.cpp:309-317 | a second click keeps the game invariant |
| Game.ClickPreservesInvariant | main.cpp:299-317 | every click keeps the game invariant |
| Game.PlayPreservesInvariant | main.cpp:289-320 | any sequence of clicks keeps the game invariant |
| Game.ReachableGamesBounded | main.cpp:273-276 | whatever is clicked, the board never holds more than 32 pieces and each score stays within 0..32 |
| Game.ClickNeverAddsPieces | main.cpp:309-317 | no click increases the number of pieces on the board |
| Game.CaptureCreditsMover | main.cpp:300-317 | when the players have their colours, every square is well formed and the selected piece is the mover's, as in every reachable state, a legal move captures only the opponent's pieces, credits the mover with one point per capture, and hands the move to the opponent |
| Scenarios.NewGameKingsPawnAtHome | main.cpp:143-165 | at the start, White moves, the pawn on (4, 1) is White's, (4, 2) and (4, 3) are empty and (4, 6) holds a Black pawn |
| Scenarios.OpeningDoubleStep | main.cpp:181-189 | the double step (4, 1) to (4, 3) is legal from that position and lands the pawn; Black's pawn on (4, 6) then cannot move to (4, 3) |
| Scenarios.RookBlockedThenFree | main.cpp:202-215 | the rook on (0, 0) cannot reach (0, 5) past its own pawn, but can once (0, 1) is empty |
| Scenarios.RoyalSquares | main.cpp:138-152 | the Queen starts on column 3 and the King on column 4, for both colours |
| Openings.ClickSelectsKingsPawn | main.cpp:300-308 | with the king's pawn at home, a first click on it selects it and changes nothing else |
| Openings.ClickMovesKingsPawn | main.cpp:309-317 | with White's pawn on (4, 1) selected and (4, 2) and (4, 3) empty, a click on (4, 3) makes the double step: the pawn lands, its home square empties, nothing is scored, the selection is cleared and the turn passes |
| Openings.KingsPawnTwoClicks | main.cpp:299-317 | from every position with the king's pawn at home, the opening position among them, the two clicks (4, 1) then (4, 3) make the double step and pass the turn without scoring |
| Openings.PlayTwoClicks | main.cpp:289-320 | processing two clicks in the event loop is one click applied after the other |

## Left out

- Rendering and assets: texture, sprite, font and background loading, drawing, sprite positioning and scaling. These are calls into a graphics library and file I/O.
- The `exit(-1)` paths taken when an asset fails to load.
- Window and event plumbing: polling events, closing the window, the main loop. A click reaches the model as a `Square`.
- The conversion of pixel coordinates to squares (division by 62 and by 60). It depends on the window geometry and can yield indices outside the board, which the code does not check. Clicks are modelled as squares already in 0..7, the `Coord` type.
- Player names, the console message printed when a score is credited, and the string getters `getName` and `getColor`. These are cosmetic and do not affect the rules.
- The `Piece` sprite field. The rules never read it.
- AddScore: does not model 32-bit wrap-around of the score. It is only ever called with 1, and `Game.ReachableGamesBounded` proves every score stays within 0..32.
- Check, checkmate, stalemate, castling, en passant, promotion, and King, Queen and Knight movement. The code has none of them, so the model has none.

=== FILE: board.dfy ===
/**
 The 8x8 board: eight rows of eight pieces, read as `board[y][x]`, with its
 single-square update, its piece count, and the starting layout.
 */
module Boards {
  import opened Pieces
  import opened Squares

  /** Eight rows of eight squares each. */
  type Board = b: seq<seq<Piece>> | |b| == 8 && forall y :: 0 <= y < 8 ==> |b[y]| == 8
    witness seq(8, _ => seq(8, _ => Empty))

  /** The piece on square `s`, that is `board[s.y][s.x]`. */
  function At(b: Board, s: Square): Piece {
    b[s.y][s.x]
  }

  /** The board with `p` written on square `s`. */
  function Put(b: Board, s: Square, p: Piece): (r: Board)
    ensures At(r, s) == p
    ensures forall t :: t != s ==> At(r, t) == At(b, t)
  {
    b[s.y := b[s.y][s.x := p]]
  }

  predicate Vacant(b: Board, s: Square) {
    !IsOccupied(At(b, s))
  }

  /** Square `s` holds a piece of colour `c` (the "allied piece on the destination" test). */
  predicate HoldsColor(b: Board, s: Square, c: PieceColor) {
    IsOccupied(At(b, s)) && At(b, s).color == c
  }

  /** No square holds a kind without a colour or a colour without a kind. */
  ghost predicate WellFormedBoard(b: Board) {
    forall s :: WellFormed(At(b, s))
  }

  // ---------------------------------------------------------------------
  // Counting pieces
  // ---------------------------------------------------------------------

  /** The occupied squares of a row: all of them exactly when every square holds a piece, none exactly when every square is empty. */
  function RowCount(row: seq<Piece>): (n: nat)
    ensures n <= |row|
    ensures n == |row| <==> forall i :: 0 <= i < |row| ==> IsOccupied(row[i])
    ensures n == 0 <==> forall i :: 0 <= i < |row| ==> !IsOccupied(row[i])
  {
    if |row| == 0 then 0
    else
      assert forall i :: 1 <= i < |row| ==> row[i] == row[1..][i - 1];
      Occupancy(row[0]) + RowCount(row[1..])
  }

  function RowsCount(rows: seq<seq<Piece>>): nat {
    if |rows| == 0 then 0 else RowCount(rows[0]) + RowsCount(rows[1..])
  }

  /** The number of occupied squares on the board. */
  function OccupiedCount(b: Board): nat {
    RowsCount(b)
  }

  lemma {:induction false} RowCountUpdate(row: seq<Piece>, i: nat, p: Piece)
    requires i < |row|
    ensures RowCount(row[i := p]) == RowCount(row) - Occupancy(row[i]) + Occupancy(p)
  {
    if i == 0 {
      assert row[i := p][1..] == row[1..];
    } else {
      RowCountUpdate(row[1..], i - 1, p);
      assert row[i := p][1..] == row[1..][i - 1 := p];
    }
  }

  lemma {:induction false} RowsCountUpdate(rows: seq<seq<Piece>>, y: nat, row: seq<Piece>)
    requires y < |rows|
    ensures RowsCount(rows[y := row]) == RowsCount(rows) - RowCount(rows[y]) + RowCount(row)
  {
    if y == 0 {
      assert rows[y := row][1..] == rows[1..];
    } else {
      RowsCountUpdate(rows[1..], y - 1, row);
      assert rows[y := row][1..] == rows[1..][y - 1 := row];
    }
  }

  /** Writing one square changes the piece count only by what that square loses and gains. */
  lemma PutCount(b: Board, s: Square, p: Piece)
    ensures OccupiedCount(Put(b, s, p)) == OccupiedCount(b) - Occupancy(At(b, s)) + Occupancy(p)
  {
    RowCountUpdate(b[s.y], s.x, p);
    RowsCountUpdate(b, s.y, b[s.y][s.x := p]);
  }

  // ---------------------------------------------------------------------
  // The starting position
  // ---------------------------------------------------------------------

  /** Rook, Knight, Bishop, Queen, King, Bishop, Knight, Rook: the Queen on column 3 and the King on column 4. */
  function BackRank(x: Coord): PieceType {
    if x == 0 || x == 7 then Rook
    else if x == 1 || x == 6 then Knight
    else if x == 2 || x == 5 then Bishop
    else if x == 3 then Queen
    else King
  }

  /** A back row: the piece kinds of `BackRank`, all of colour `c`. */
  function BackRow(c: PieceColor): seq<Piece> {
    seq(8, (x: int) requires 0 <= x < 8 => Piece(BackRank(x), c))
  }

  function PawnRow(c: PieceColor): seq<Piece> {
    seq(8, _ => Piece(Pawn, c))
  }

  function EmptyRow(): seq<Piece> {
    seq(8, _ => Empty)
  }

  /** Row `y` of the starting position: White on rows 0 and 1, Black on rows 6 and 7, rows 2 to 5 empty. */
  function InitialRow(y: Coord): seq<Piece> {
    if y == 0 then BackRow(White)
    else if y == 1 then PawnRow(White)
    else if y == 6 then PawnRow(Black)
    else if y == 7 then BackRow(Black)
    else EmptyRow()
  }

  function InitializeBoard(): Board {
    seq(8, (y: int) requires 0 <= y < 8 => InitialRow(y))
  }

  /** The starting position, square by square. */
  lemma InitialLayout(s: Square)
    ensures s.y <= 1 ==> At(InitializeBoard(), s).color == White
    ensures s.y >= 6 ==> At(InitializeBoard(), s).color == Black
    ensures s.y == 0 || s.y == 7 ==> At(InitializeBoard(), s).kind == BackRank(s.x)
    ensures s.y == 1 || s.y == 6 ==> At(InitializeBoard(), s).kind == Pawn
    ensures 2 <= s.y <= 5 ==> At(InitializeBoard(), s) == Empty
  {
    assert InitializeBoard()[s.y] == InitialRow(s.y);
  }

  /** The two sides mirror each other: the same kind on square (x, y) and on square (x, 7 - y). */
  lemma InitialLayoutMirrored(s: Square)
    ensures At(InitializeBoard(), Square(s.x, 7 - s.y)).kind == At(InitializeBoard(), s).kind
  {
    InitialLayout(s);
    InitialLayout(Square(s.x, 7 - s.y));
  }

  lemma InitialBoardWellFormed()
    ensures WellFormedBoard(InitializeBoard())
  {
    forall s ensures WellFormed(At(InitializeBoard(), s)) {
      InitialLayout(s);
    }
  }

  /** The game starts with 32 pieces: 8 in each of the four full rows. */
  lemma InitialCount()
    ensures OccupiedCount(InitializeBoard()) == 32
  {
    var b := InitializeBoard();
    RowsCountOfEight(b);
    InitialRowCount(0);
    InitialRowCount(1);
    InitialRowCount(2);
    InitialRowCount(3);
    InitialRowCount(4);
    InitialRowCount(5);
    InitialRowCount(6);
    InitialRowCount(7);
  }

  lemma InitialRowCount(y: Coord)
    ensures RowCount(InitializeBoard()[y]) == if y <= 1 || y >= 6 then 8 else 0
  {
    var row := InitializeBoard()[y];
    if y <= 1 || y >= 6 {
      forall x: Coord ensures IsOccupied(row[x]) {
        InitialLayout(Square(x, y));
      }
    } else {
      forall x: Coord ensures !IsOccupied(row[x]) {
        InitialLayout(Square(x, y));
      }
    }
  }

  lemma RowsCountOfEight(rows: seq<seq<Piece>>)
    requires |rows| == 8
    ensures RowsCount(rows) == RowCount(rows[0]) + RowCount(rows[1]) + RowCount(rows[2]) + RowCount(rows[3])
                             + RowCount(rows[4]) + RowCount(rows[5]) + RowCount(rows[6]) + RowCount(rows[7])
  {
    assert rows[0..] == rows;
    RowsCountStep(rows, 0);
    RowsCountStep(rows, 1);
    RowsCountStep(rows, 2);
    RowsCountStep(rows, 3);
    RowsCountStep(rows, 4);
    RowsCountStep(rows, 5);
    RowsCountStep(rows, 6);
    RowsCountStep(rows, 7);
    assert rows[8..] == [];
  }

  /** Counting the rows from `k` on is counting row `k` and then the rows after it. */
  lemma RowsCountStep(rows: seq<seq<Piece>>, k: nat)
    requires k < |rows|
    ensures RowsCount(rows[k..]) == RowCount(rows[k]) + RowsCount(rows[k + 1..])
  {
    assert rows[k..][0] == rows[k];
    assert rows[k..][1..] == rows[k + 1..];
  }
}

=== FILE: destinations.dfy ===
/**
 The legal destinations of a selected piece: every square of the board is
 put to the legality check, rows from 0 to 7 and, within a row, columns from
 0 to 7, and the squares that pass are collected in that order. The result
 replaces whatever destinations were shown before.
 */
module Destinations {
  import opened Pieces
  import opened Squares
  import opened Boards
  import opened Rules

  /** The legal destinations in row `y` from column `x` on, left to right. */
  function RowMoves(b: Board, from: Square, y: Coord, x: nat): (r: seq<Square>)
    requires x <= 8
    ensures forall s :: s in r <==> s.y == y && x <= s.x && IsMoveValid(b, from, s)
    ensures forall k :: 0 <= k < |r| ==> r[k].y == y && x <= r[k].x
    ensures RowMajor(r)
    decreases 8 - x
  {
    if x == 8 then []
    else
      var here := Square(x, y);
      var first, rest := if IsMoveValid(b, from, here) then [here] else [], RowMoves(b, from, y, x + 1);
      RowMajorJoin(first, rest);
      first + rest
  }

  /** The legal destinations in rows `y` to 7, row by row. */
  function MovesFrom(b: Board, from: Square, y: nat): (r: seq<Square>)
    requires y <= 8
    ensures forall s :: s in r <==> y <= s.y && IsMoveValid(b, from, s)
    ensures forall k :: 0 <= k < |r| ==> y <= r[k].y
    ensures RowMajor(r)
    decreases 8 - y
  {
    if y == 8 then []
    else
      var row, rest := RowMoves(b, from, y, 0), MovesFrom(b, from, y + 1);
      RowMajorJoin(row, rest);
      row + rest
  }

  /**
   The destinations shown for the piece on `from`: exactly the squares the
   legality check accepts, each once, in row-major order.
   */
  function CalculateValidMoves(b: Board, from: Square): (r: seq<Square>)
    ensures forall s :: s in r <==> IsMoveValid(b, from, s)
    ensures RowMajor(r)
  {
    MovesFrom(b, from, 0)
  }

  /** No destination is listed twice. */
  lemma ValidMovesDistinct(b: Board, from: Square)
    ensures var r := CalculateValidMoves(b, from);
            forall i, j :: 0 <= i < |r| && 0 <= j < |r| && i != j ==> r[i] != r[j]
  {
    RowMajorDistinct(CalculateValidMoves(b, from));
  }

  /** The list is exactly the rule table's set of destinations. */
  lemma ValidMovesFollowRules(b: Board, from: Square, s: Square)
    ensures s in CalculateValidMoves(b, from) <==> RuleTable(b, from, s)
  {
    MoveRules(b, from, s);
  }
}

=== FILE: game.dfy ===
/**
 The game state and its transitions: the two players and their scores, whose
 turn it is, moving a piece (with a point for every capture), and the
 two-click protocol by which a player selects a piece and then its
 destination. Clicks arrive already converted to squares of the board.
 */
module Game {
  import opened Pieces
  import opened Squares
  import opened Boards
  import opened Rules
  import opened Destinations

  // ---------------------------------------------------------------------
  // Players and turns
  // ---------------------------------------------------------------------

  /** A player is the colour they play and their score; the score starts at 0. */
  datatype Player = Player(color: PieceColor, score: int)

  /** Credit `points` to a player. */
  function AddScore(p: Player, points: int): (r: Player)
    ensures r.color == p.color
    ensures r.score - p.score == points
  {
    p.(score := p.score + points)
  }

  /** Whose move it is: the game keeps a reference to one of its two players. */
  datatype Turn = WhiteToMove | BlackToMove

  /** Hand the move to the other player. */
  function SwitchTurn(t: Turn): (r: Turn)
    ensures r != t
  {
    if t == WhiteToMove then BlackToMove else WhiteToMove
  }

  /** Switching twice gives the move back. */
  lemma SwitchTurnTwice(t: Turn)
    ensures SwitchTurn(SwitchTurn(t)) == t
  {
  }

  /** The square picked by a first click, if any. */
  datatype Selection = NoSelection | Selected(square: Square)

  /** Everything the rules read and write: the board, both players, the turn, the selection and its destinations. */
  datatype GameState = GameState(
    board: Board,
    white: Player,
    black: Player,
    turn: Turn,
    selection: Selection,
    validMoves: seq<Square>)

  /** The player whose move it is. */
  function CurrentPlayer(g: GameState): Player {
    if g.turn == WhiteToMove then g.white else g.black
  }

  /** The player waiting for their move. */
  function Opponent(g: GameState): Player {
    if g.turn == WhiteToMove then g.black else g.white
  }

  function WithCurrentPlayer(g: GameState, p: Player): GameState {
    if g.turn == WhiteToMove then g.(white := p) else g.(black := p)
  }

  /** The game as it opens: the starting layout, two players on 0 points, White to move, nothing selected. */
  function NewGame(): (g: GameState)
    ensures CurrentPlayer(g).color == White && Opponent(g).color == Black
    ensures CurrentPlayer(g).score == 0 && Opponent(g).score == 0
    ensures g.selection == NoSelection && g.validMoves == []
    ensures g.board == InitializeBoard() && g.turn == WhiteToMove
  {
    GameState(InitializeBoard(), Player(White, 0), Player(Black, 0), WhiteToMove, NoSelection, [])
  }

  // ---------------------------------------------------------------------
  // Moving a piece
  // ---------------------------------------------------------------------

  /** The destination holds a piece whose colour differs from the moving piece's. */
  predicate IsCapture(b: Board, from: Square, to: Square) {
    IsOccupied(At(b, to)) && At(b, to).color != At(b, from).color
  }

  /**
   Move the piece on `from` to `to`, crediting the player to move with one
   point when that takes a piece of another colour. No legality check is made
   here. The destination is written before the source is cleared, so a move
   from a square to itself leaves that square empty.
   */
  function MovePiece(g: GameState, from: Square, to: Square): (r: GameState)
    ensures from != to ==> At(r.board, to) == At(g.board, from)
    ensures At(r.board, from) == Empty
    ensures forall s :: s != from && s != to ==> At(r.board, s) == At(g.board, s)
    ensures CurrentPlayer(r).color == CurrentPlayer(g).color
    ensures CurrentPlayer(r).score == CurrentPlayer(g).score + (if IsCapture(g.board, from, to) then 1 else 0)
    ensures Opponent(r) == Opponent(g)
    ensures r.turn == g.turn && r.selection == g.selection && r.validMoves == g.validMoves
  {
    var scored := if IsCapture(g.board, from, to) then WithCurrentPlayer(g, AddScore(CurrentPlayer(g), 1)) else g;
    var placed := Put(g.board, to, At(g.board, from));
    scored.(board := Put(placed, from, Empty))
  }

  /** A move removes exactly the piece that stood on the destination, if there was one: the count never grows. */
  lemma MovePieceCount(g: GameState, from: Square, to: Square)
    ensures OccupiedCount(MovePiece(g, from, to).board) == OccupiedCount(g.board) - Occupancy(At(g.board, to))
    ensures OccupiedCount(MovePiece(g, from, to).board) <= OccupiedCount(g.board)
  {
    var placed := Put(g.board, to, At(g.board, from));
    PutCount(g.board, to, At(g.board, from));
    PutCount(placed, from, Empty);
  }

  // ---------------------------------------------------------------------
  // The click protocol
  // ---------------------------------------------------------------------

  /** A first click: select `sq` when it holds a piece of the player to move, and list its destinations. */
  function SelectSquare(g: GameState, sq: Square): (r: GameState)
    requires g.selection == NoSelection
    ensures r.selection.Selected? <==> HoldsColor(g.board, sq, CurrentPlayer(g).color)
    ensures r.selection.Selected? ==> r.selection.square == sq && r.validMoves == CalculateValidMoves(g.board, sq)
    ensures r.board == g.board && r.turn == g.turn && r.white == g.white && r.black == g.black
    ensures r.selection == NoSelection ==> r == g
  {
    if HoldsColor(g.board, sq, CurrentPlayer(g).color) then
      g.(selection := Selected(sq), validMoves := CalculateValidMoves(g.board, sq))
    else
      g
  }

  /**
   A second click: the move from the selected square to `sq` is made, and the
   turn passes, when it is legal; either way the selection is dropped.
   */
  function ChooseDestination(g: GameState, from: Square, sq: Square): (r: GameState)
    ensures r.selection == NoSelection && r.validMoves == []
    ensures r.turn != g.turn <==> IsMoveValid(g.board, from, sq)
    ensures r.turn == g.turn ==> r.board == g.board && r.white == g.white && r.black == g.black
    ensures r.turn != g.turn ==>
              var moved := MovePiece(g, from, sq);
              r.board == moved.board && r.white == moved.white && r.black == moved.black
  {
    var next :=
      if IsMoveValid(g.board, from, sq) then
        var moved := MovePiece(g, from, sq);
        moved.(turn := SwitchTurn(moved.turn))
      else
        g;
    next.(selection := NoSelection, validMoves := [])
  }

  /**
   One click on square `sq`: a first click selects, a second click chooses the
   destination and always clears the selection.
   */
  function Click(g: GameState, sq: Square): (r: GameState)
    // a first click selects only a piece of the current player's colour
    ensures r.selection.Selected? <==>
              g.selection == NoSelection && HoldsColor(g.board, sq, CurrentPlayer(g).color)
    // a second click always clears the selection
    ensures g.selection.Selected? ==> r.selection == NoSelection && r.validMoves == []
    // the board and the turn change exactly when a selected piece makes a legal move
    ensures r.turn != g.turn <==> g.selection.Selected? && IsMoveValid(g.board, g.selection.square, sq)
    ensures r.turn == g.turn ==> r.board == g.board
    // a selection is of the clicked square, and lists exactly its legal destinations
    ensures r.selection.Selected? ==> r.selection.square == sq && r.validMoves == CalculateValidMoves(g.board, sq)
    // a legal move changes board and scores exactly as moving the selected piece does
    ensures g.selection.Selected? && r.turn != g.turn ==>
              var moved := MovePiece(g, g.selection.square, sq);
              r.board == moved.board && r.white == moved.white && r.black == moved.black
  {
    match g.selection
    case NoSelection => SelectSquare(g, sq)
    case Selected(from) => ChooseDestination(g, from, sq)
  }

  /** The game after a sequence of clicks. */
  function Play(g: GameState, clicks: seq<Square>): GameState
    decreases |clicks|
  {
    if |clicks| == 0 then g else Play(Click(g, clicks[0]), clicks[1..])
  }

  // ---------------------------------------------------------------------
  // What every reachable game state satisfies
  // ---------------------------------------------------------------------

  /** The players keep their colours, and every piece missing from the board has been credited to exactly one player. */
  ghost predicate ScoresAccountForCaptures(g: GameState) {
    && g.white.color == White && g.black.color == Black
    && 0 <= g.white.score && 0 <= g.black.score
    && g.white.score + g.black.score + OccupiedCount(g.board) == 32
  }

  /** A selected square holds a piece of the player to move and its legal destinations are listed; otherwise none are. */
  ghost predicate SelectionConsistent(g: GameState) {
    match g.selection
    case NoSelection => g.validMoves == []
    case Selected(s) => HoldsColor(g.board, s, CurrentPlayer(g).color) && g.validMoves == CalculateValidMoves(g.board, s)
  }

  /** What holds of every game reachable from the opening by clicks. */
  ghost predicate GameInvariant(g: GameState) {
    WellFormedBoard(g.board) && ScoresAccountForCaptures(g) && SelectionConsistent(g)
  }

  lemma NewGameInvariant()
    ensures GameInvariant(NewGame())
  {
    InitialBoardWellFormed();
    InitialCount();
  }

  /** A legal move credits a point exactly when its destination was occupied. */
  lemma LegalMoveScoresCaptures(b: Board, from: Square, to: Square)
    requires IsMoveValid(b, from, to)
    ensures IsCapture(b, from, to) <==> IsOccupied(At(b, to))
  {
    LegalMoveNeverTakesOwnPiece(b, from, to);
  }

  /** Moving a piece writes only well-formed values. */
  lemma MovePieceKeepsWellFormed(g: GameState, from: Square, to: Square)
    requires WellFormedBoard(g.board)
    ensures WellFormedBoard(MovePiece(g, from, to).board)
  {
    var r := MovePiece(g, from, to);
    forall s ensures WellFormed(At(r.board, s)) {
      if s != from && s != to {
        assert WellFormed(At(g.board, s));
      } else if s == to && s != from {
        assert WellFormed(At(g.board, from));
      }
    }
  }

  /** A legal move either lands on an empty square and scores nothing, or takes one piece and scores one point. */
  lemma LegalMoveKeepsAccounts(g: GameState, from: Square, to: Square)
    requires ScoresAccountForCaptures(g)
    requires IsMoveValid(g.board, from, to)
    ensures ScoresAccountForCaptures(MovePiece(g, from, to))
  {
    MovePieceCount(g, from, to);
    LegalMoveScoresCaptures(g.board, from, to);
  }

  lemma SelectSquarePreservesInvariant(g: GameState, sq: Square)
    requires GameInvariant(g) && g.selection == NoSelection
    ensures GameInvariant(SelectSquare(g, sq))
  {
  }

  lemma ChooseDestinationPreservesInvariant(g: GameState, from: Square, sq: Square)
    requires WellFormedBoard(g.board) && ScoresAccountForCaptures(g)
    ensures GameInvariant(ChooseDestination(g, from, sq))
  {
    if IsMoveValid(g.board, from, sq) {
      MovePieceKeepsWellFormed(g, from, sq);
      LegalMoveKeepsAccounts(g, from, sq);
    }
  }

  lemma ClickPreservesInvariant(g: GameState, sq: Square)
    requires GameInvariant(g)
    ensures GameInvariant(Click(g, sq))
  {
    match g.selection
    case NoSelection => SelectSquarePreservesInvariant(g, sq);
    case Selected(from) => ChooseDestinationPreservesInvariant(g, from, sq);
  }

  lemma {:induction false} PlayPreservesInvariant(g: GameState, clicks: seq<Square>)
    requires GameInvariant(g)
    ensures GameInvariant(Play(g, clicks))
    decreases |clicks|
  {
    if |clicks| > 0 {
      ClickPreservesInvariant(g, clicks[0]);
      PlayPreservesInvariant(Click(g, clicks[0]), clicks[1..]);
    }
  }

  /** Whatever is clicked, a game never has more than its 32 starting pieces and each score stays within 0..32. */
  lemma ReachableGamesBounded(clicks: seq<Square>)
    ensures var g := Play(NewGame(), clicks);
            && OccupiedCount(g.board) <= 32
            && 0 <= g.white.score <= 32 && 0 <= g.black.score <= 32
  {
    NewGameInvariant();
    PlayPreservesInvariant(NewGame(), clicks);
    var g := Play(NewGame(), clicks);
    assert ScoresAccountForCaptures(g);
  }

  /** No click adds a piece to the board. */
  lemma ClickNeverAddsPieces(g: GameState, sq: Square)
    ensures OccupiedCount(Click(g, sq).board) <= OccupiedCount(g.board)
  {
    if g.selection.Selected? {
      MovePieceCount(g, g.selection.square, sq);
    }
  }

  /** When the players have their colours, every square is well formed and the selected piece is the mover's (as in every reachable state), a legal move takes only pieces of the opponent's colour and credits its mover. */
  lemma CaptureCreditsMover(g: GameState, sq: Square)
    requires WellFormedBoard(g.board) && g.white.color == White && g.black.color == Black
    requires g.selection.Selected? && HoldsColor(g.board, g.selection.square, CurrentPlayer(g).color)
    requires IsMoveValid(g.board, g.selection.square, sq)
    ensures IsOccupied(At(g.board, sq)) ==> At(g.board, sq).color == Opponent(g).color
    ensures var r := Click(g, sq);
            && Opponent(r).score == CurrentPlayer(g).score + Occupancy(At(g.board, sq))
            && CurrentPlayer(r) == Opponent(g)
  {
    var from := g.selection.square;
    LegalMoveScoresCaptures(g.board, from, sq);
    assert WellFormed(At(g.board, sq));
  }
}

=== FILE: openings.dfy ===
/**
 The opening played through the click protocol: White's first click selects
 the king's pawn, the second moves it two rows ahead. The game opens in such a
 position (`Scenarios.NewGameKingsPawnAtHome`).
 */
module Openings {
  import opened Pieces
  import opened Squares
  import opened Boards
  import opened Rules
  import opened Game
  import opened Scenarios

  /** The first click on the king's pawn selects it; nothing else changes. */
  lemma ClickSelectsKingsPawn(g: GameState)
    requires KingsPawnAtHome(g)
    ensures var r := Click(g, Square(4, 1));
            && r.selection == Selected(Square(4, 1))
            && r.board == g.board && r.turn == g.turn && r.white == g.white && r.black == g.black
  {
  }

  /** With the king's pawn selected and the two squares ahead empty, clicking two rows ahead makes the double step without scoring and passes the turn. */
  lemma ClickMovesKingsPawn(g: GameState)
    requires g.selection == Selected(Square(4, 1)) && CurrentPlayer(g).color == White
    requires At(g.board, Square(4, 1)) == Piece(Pawn, White)
    requires Vacant(g.board, Square(4, 2)) && Vacant(g.board, Square(4, 3))
    ensures var r := Click(g, Square(4, 3));
            && r.turn == SwitchTurn(g.turn)
            && At(r.board, Square(4, 3)) == Piece(Pawn, White)
            && At(r.board, Square(4, 1)) == Empty
            && r.selection == NoSelection
            && r.white == g.white && r.black == g.black
  {
    var pawn, target := Square(4, 1), Square(4, 3);
    assert PawnMoveValid(g.board, pawn, target);
    var moved := MovePiece(g, pawn, target);
    assert !IsCapture(g.board, pawn, target);
    assert moved.white == g.white && moved.black == g.black;
  }

  /**
   Two clicks from a position with the king's pawn at home: the first selects
   the pawn, the second moves it two rows ahead. The pawn lands there, its home
   square is empty, nothing is selected, no point is scored, and the turn passes.
   */
  lemma KingsPawnTwoClicks(g: GameState)
    requires KingsPawnAtHome(g)
    ensures var r := Click(Click(g, Square(4, 1)), Square(4, 3));
            && r.turn == SwitchTurn(g.turn)
            && At(r.board, Square(4, 3)) == Piece(Pawn, White)
            && At(r.board, Square(4, 1)) == Empty
            && r.selection == NoSelection
            && r.white == g.white && r.black == g.black
  {
    ClickSelectsKingsPawn(g);
    ClickMovesKingsPawn(Click(g, Square(4, 1)));
  }

  /** Two clicks are one click after the other. */
  lemma PlayTwoClicks(g: GameState, first: Square, second: Square)
    ensures Play(g, [first, second]) == Click(Click(g, first), second)
  {
    var clicks, g1 := [first, second], Click(g, first);
    assert clicks[1..] == [second] && [second][1..] == [];
    assert Play(g, clicks) == Play(g1, [second]);
    assert Play(g1, [second]) == Play(Click(g1, second), []);
  }
}

=== FILE: pieces.dfy ===
/**
 Chess pieces as plain values. A square of the board always holds a `Piece`;
 an empty square holds the piece whose kind (and, on every board the game
 produces, whose colour) is `None`.
 */
module Pieces {

  /** The kinds of piece, in the order the game declares them; `None` marks an empty square. */
  datatype PieceType = King | Queen | Bishop | Knight | Rook | Pawn | None

  /** Piece colours; `None` is the colour of an empty square. */
  datatype PieceColor = White | Black | None

  /** A piece is its kind and its colour; it has no identity beyond the square it stands on. */
  datatype Piece = Piece(kind: PieceType, color: PieceColor)

  /** The value every emptied square receives. */
  const Empty := Piece(PieceType.None, PieceColor.None)

  /** The game's test for "there is a piece here": only the kind is consulted, never the colour. */
  predicate IsOccupied(p: Piece) {
    !p.kind.None?
  }

  /** A piece whose kind and colour agree on being absent: every square the game writes is of this form. */
  predicate WellFormed(p: Piece) {
    p.kind.None? <==> p.color.None?
  }

  /** 1 for an occupied square and 0 for an empty one, for counting pieces. */
  function Occupancy(p: Piece): nat {
    if IsOccupied(p) then 1 else 0
  }
}

=== FILE: rules.dfy ===
/**
 Move legality. `IsMoveValid` follows the game's legality check branch for
 branch: rules exist for the Pawn, the Rook and the Bishop only, and every
 other piece (and an empty square) can never move. The Rook's and Bishop's
 path scans are written as recursive predicates that step exactly like the
 game's loops.

 The second half of the module states the same rules as a table over the
 geometry of `Squares` (`PawnRule`, `RookRule`, `BishopRule`) and proves the
 scanning code equivalent to it.
 */
module Rules {
  import opened Pieces
  import opened Squares
  import opened Boards

  // ---------------------------------------------------------------------
  // The legality check
  // ---------------------------------------------------------------------

  /** White pawns advance towards larger rows, every other pawn towards smaller ones. */
  function PawnDirection(c: PieceColor): int {
    if c == White then 1 else -1
  }

  /** The row a pawn of colour `c` starts on, from which it may advance two squares. */
  predicate OnHomeRow(c: PieceColor, y: int) {
    (c == White && y == 1) || (c == Black && y == 6)
  }

  /** The three pawn cases, each of which alone makes the move legal. */
  predicate PawnMoveValid(b: Board, from: Square, to: Square) {
    var p, q := At(b, from), At(b, to);
    var dir := PawnDirection(p.color);
    // one square straight ahead, onto an empty square
    || (from.x == to.x && from.y + dir == to.y && !IsOccupied(q))
    // two squares straight ahead from the home row, both squares empty
    || (&& OnHomeRow(p.color, from.y)
        && from.x == to.x && Abs(from.y - to.y) == 2 && !IsOccupied(q)
        && !IsOccupied(b[from.y + dir][from.x]))
    // one square diagonally ahead, onto a piece of another colour
    || (Abs(from.x - to.x) == 1 && from.y + dir == to.y && IsOccupied(q) && q.color != p.color)
  }

  /** The rook's vertical scan: rows `y` up to (not including) `end` of column `x` hold no piece. */
  predicate ColumnClear(b: Board, x: Coord, y: int, end: int)
    requires 0 <= y && end <= 8
    decreases end - y
  {
    if y >= end then true
    else if IsOccupied(b[y][x]) then false
    else ColumnClear(b, x, y + 1, end)
  }

  /** The rook's horizontal scan: columns `x` up to (not including) `end` of row `y` hold no piece. */
  predicate RowClear(b: Board, y: Coord, x: int, end: int)
    requires 0 <= x && end <= 8
    decreases end - x
  {
    if x >= end then true
    else if IsOccupied(b[y][x]) then false
    else RowClear(b, y, x + 1, end)
  }

  predicate RookMoveValid(b: Board, from: Square, to: Square) {
    var own := At(b, from).color;
    if from.x == to.x then
      ColumnClear(b, from.x, Min(from.y, to.y) + 1, Max(from.y, to.y)) && !HoldsColor(b, to, own)
    else if from.y == to.y then
      RowClear(b, from.y, Min(from.x, to.x) + 1, Max(from.x, to.x)) && !HoldsColor(b, to, own)
    else
      false
  }

  /**
   The bishop's scan: the cursor (x, y) walks by (xs, ys) until it reaches
   `to`, and every square it stands on before that must be empty. The cursor
   stays on a diagonal through `to` and moves one square closer each step.
   */
  predicate DiagonalClear(b: Board, x: int, y: int, xs: int, ys: int, to: Square)
    requires 0 <= x < 8 && 0 <= y < 8
    requires Abs(to.x - x) == Abs(to.y - y)
    requires x != to.x ==> xs == Sign(to.x - x) && ys == Sign(to.y - y)
    decreases Abs(to.x - x)
  {
    if x == to.x && y == to.y then true
    else if IsOccupied(b[y][x]) then false
    else DiagonalClear(b, x + xs, y + ys, xs, ys, to)
  }

  predicate BishopMoveValid(b: Board, from: Square, to: Square) {
    if Abs(from.x - to.x) == Abs(from.y - to.y) then
      var xs, ys := Sign(to.x - from.x), Sign(to.y - from.y);
      DiagonalClear(b, from.x + xs, from.y + ys, xs, ys, to) && !HoldsColor(b, to, At(b, from).color)
    else
      false
  }

  /** Whether the piece on `from` may move to `to`. */
  predicate IsMoveValid(b: Board, from: Square, to: Square) {
    match At(b, from).kind
    case Pawn => PawnMoveValid(b, from, to)
    case Rook => RookMoveValid(b, from, to)
    case Bishop => BishopMoveValid(b, from, to)
    case _ => false
  }

  // ---------------------------------------------------------------------
  // The rules as a table
  // ---------------------------------------------------------------------

  /** Pawn: straight ahead only onto empty squares (two from the home row over an empty square), diagonally only to take. */
  ghost predicate PawnRule(b: Board, from: Square, to: Square) {
    var c := At(b, from).color;
    var dir := PawnDirection(c);
    || (&& from.x == to.x && Vacant(b, to)
        && (|| to.y == from.y + dir
            || (OnHomeRow(c, from.y) && to.y == from.y + 2 * dir && Vacant(b, Square(from.x, from.y + dir)))))
    || (&& Abs(to.x - from.x) == 1 && to.y == from.y + dir
        && IsOccupied(At(b, to)) && At(b, to).color != c)
  }

  /** Rook: along a row or a column, over empty squares only, not onto a piece of its own colour. */
  ghost predicate RookRule(b: Board, from: Square, to: Square) {
    && (from.x == to.x || from.y == to.y)
    && (forall s :: OnRookPath(from, to, s) ==> Vacant(b, s))
    && !HoldsColor(b, to, At(b, from).color)
  }

  /** Bishop: along a diagonal, over empty squares only, not onto a piece of its own colour. */
  ghost predicate BishopRule(b: Board, from: Square, to: Square) {
    && Abs(to.x - from.x) == Abs(to.y - from.y)
    && (forall s :: OnDiagonalPath(from, to, s) ==> Vacant(b, s))
    && !HoldsColor(b, to, At(b, from).color)
  }

  /** The whole table: King, Queen, Knight and an empty square have no legal move. */
  ghost predicate RuleTable(b: Board, from: Square, to: Square) {
    match At(b, from).kind
    case Pawn => PawnRule(b, from, to)
    case Rook => RookRule(b, from, to)
    case Bishop => BishopRule(b, from, to)
    case _ => false
  }

  // ---------------------------------------------------------------------
  // The scans visit exactly the squares between source and destination
  // ---------------------------------------------------------------------

  lemma {:induction false} ColumnClearIff(b: Board, x: Coord, y: int, end: int)
    requires 0 <= y && end <= 8
    ensures ColumnClear(b, x, y, end) <==> forall s: Square :: s.x == x && y <= s.y < end ==> Vacant(b, s)
    decreases end - y
  {
    if y < end {
      ColumnClearIff(b, x, y + 1, end);
      assert At(b, Square(x, y)) == b[y][x];
    }
  }

  lemma {:induction false} RowClearIff(b: Board, y: Coord, x: int, end: int)
    requires 0 <= x && end <= 8
    ensures RowClear(b, y, x, end) <==> forall s: Square :: s.y == y && x <= s.x < end ==> Vacant(b, s)
    decreases end - x
  {
    if x < end {
      RowClearIff(b, y, x + 1, end);
      assert At(b, Square(x, y)) == b[y][x];
    }
  }

  /** `v` lies between `a` (included) and `c` (excluded), whichever of the two is larger. */
  predicate HalfOpen(a: int, v: int, c: int) {
    (a <= v < c) || (c < v <= a)
  }

  /** The squares the bishop's cursor at (x, y) still has to visit before it reaches `to`. */
  predicate AheadOfCursor(x: int, y: int, to: Square, s: Square) {
    HalfOpen(x, s.x, to.x) && HalfOpen(y, s.y, to.y) && Abs(s.x - x) == Abs(s.y - y)
  }

  lemma {:induction false} DiagonalClearIff(b: Board, x: int, y: int, xs: int, ys: int, to: Square)
    requires 0 <= x < 8 && 0 <= y < 8
    requires Abs(to.x - x) == Abs(to.y - y)
    requires x != to.x ==> xs == Sign(to.x - x) && ys == Sign(to.y - y)
    ensures DiagonalClear(b, x, y, xs, ys, to) <==> forall s :: AheadOfCursor(x, y, to, s) ==> Vacant(b, s)
    decreases Abs(to.x - x)
  {
    if x == to.x {
      forall s ensures !AheadOfCursor(x, y, to, s) {}
    } else {
      var here := Square(x, y);
      DiagonalClearIff(b, x + xs, y + ys, xs, ys, to);
      assert AheadOfCursor(x, y, to, here);
      forall s ensures AheadOfCursor(x, y, to, s) <==> s == here || AheadOfCursor(x + xs, y + ys, to, s) {
      }
    }
  }

  /** Started one step from `from`, the bishop's cursor visits exactly the squares strictly between `from` and `to`. */
  lemma DiagonalPathIsAheadOfCursor(from: Square, to: Square, s: Square)
    requires Abs(from.x - to.x) == Abs(from.y - to.y)
    ensures OnDiagonalPath(from, to, s)
        <==> AheadOfCursor(from.x + Sign(to.x - from.x), from.y + Sign(to.y - from.y), to, s)
  {
  }

  // ---------------------------------------------------------------------
  // The legality check agrees with the rule table
  // ---------------------------------------------------------------------

  lemma PawnMoves(b: Board, from: Square, to: Square)
    requires At(b, from).kind == Pawn
    ensures IsMoveValid(b, from, to) <==> PawnRule(b, from, to)
  {
  }

  lemma RookMoves(b: Board, from: Square, to: Square)
    requires At(b, from).kind == Rook
    ensures IsMoveValid(b, from, to) <==> RookRule(b, from, to)
  {
    if from.x == to.x {
      ColumnClearIff(b, from.x, Min(from.y, to.y) + 1, Max(from.y, to.y));
      assert forall s :: OnRookPath(from, to, s) <==> s.x == from.x && Min(from.y, to.y) + 1 <= s.y < Max(from.y, to.y);
    } else if from.y == to.y {
      RowClearIff(b, from.y, Min(from.x, to.x) + 1, Max(from.x, to.x));
      assert forall s :: OnRookPath(from, to, s) <==> s.y == from.y && Min(from.x, to.x) + 1 <= s.x < Max(from.x, to.x);
    }
  }

  lemma BishopMoves(b: Board, from: Square, to: Square)
    requires At(b, from).kind == Bishop
    ensures IsMoveValid(b, from, to) <==> BishopRule(b, from, to)
  {
    if Abs(from.x - to.x) == Abs(from.y - to.y) {
      var xs, ys := Sign(to.x - from.x), Sign(to.y - from.y);
      DiagonalClearIff(b, from.x + xs, from.y + ys, xs, ys, to);
      forall s ensures OnDiagonalPath(from, to, s) <==> AheadOfCursor(from.x + xs, from.y + ys, to, s) {
        DiagonalPathIsAheadOfCursor(from, to, s);
      }
    }
  }

  /** The legality check is exactly the rule table, for every board and every pair of squares. */
  lemma MoveRules(b: Board, from: Square, to: Square)
    ensures IsMoveValid(b, from, to) <==> RuleTable(b, from, to)
  {
    match At(b, from).kind
    case Pawn => PawnMoves(b, from, to);
    case Rook => RookMoves(b, from, to);
    case Bishop => BishopMoves(b, from, to);
    case _ =>
  }

  // ---------------------------------------------------------------------
  // Consequences of the table
  // ---------------------------------------------------------------------

  /** King, Queen and Knight moves, and moves from an empty square, are never legal. */
  lemma UnimplementedPiecesNeverMove(b: Board, from: Square, to: Square)
    requires At(b, from).kind in {King, Queen, Knight, PieceType.None}
    ensures !IsMoveValid(b, from, to)
  {
  }

  /** No piece may stay where it is: a pawn needs a row change, and a rook or bishop finds its own colour on the destination. */
  lemma NullMoveIllegal(b: Board, s: Square)
    ensures !IsMoveValid(b, s, s)
  {
  }

  /** A pawn's straight move is never a capture. */
  lemma PawnNeverCapturesStraight(b: Board, from: Square, to: Square)
    requires At(b, from).kind == Pawn && from.x == to.x
    ensures IsMoveValid(b, from, to) ==> Vacant(b, to)
  {
  }

  /**
   The double step from the home row: a White pawn on row 1 may advance to
   row 3, and a Black pawn on row 6 to row 4, exactly when both squares ahead
   of it are empty.
   */
  lemma PawnDoubleStep(b: Board, x: Coord)
    ensures At(b, Square(x, 1)) == Piece(Pawn, White) ==>
              (IsMoveValid(b, Square(x, 1), Square(x, 3)) <==> Vacant(b, Square(x, 2)) && Vacant(b, Square(x, 3)))
    ensures At(b, Square(x, 6)) == Piece(Pawn, Black) ==>
              (IsMoveValid(b, Square(x, 6), Square(x, 4)) <==> Vacant(b, Square(x, 5)) && Vacant(b, Square(x, 4)))
  {
  }

  /** A pawn only advances: at most one column sideways and one or two rows towards the far side. */
  lemma PawnAdvances(b: Board, from: Square, to: Square)
    requires At(b, from).kind == Pawn && IsMoveValid(b, from, to)
    ensures Abs(to.x - from.x) <= 1
    ensures At(b, from).color == White ==> from.y < to.y <= from.y + 2
    ensures At(b, from).color != White ==> from.y - 2 <= to.y < from.y
  {
  }

  /** A legal move starts from an occupied square and never lands on a piece of the mover's own colour. */
  lemma LegalMoveNeverTakesOwnPiece(b: Board, from: Square, to: Square)
    requires IsMoveValid(b, from, to)
    ensures IsOccupied(At(b, from))
    ensures !HoldsColor(b, to, At(b, from).color)
  {
  }
}

=== FILE: scenarios.dfy ===
/**
 Concrete positions: the opening double step of a pawn, a blocked reply, and
 a rook that is blocked by its own pawn until that pawn has gone.
 */
module Scenarios {
  import opened Pieces
  import opened Squares
  import opened Boards
  import opened Rules
  import opened Game

  /** The squares of column 4 that the opening double step reads, as the game starts. */
  predicate KingsPawnAtHome(g: GameState) {
    && g.selection == NoSelection
    && CurrentPlayer(g).color == White
    && At(g.board, Square(4, 1)) == Piece(Pawn, White)
    && Vacant(g.board, Square(4, 2))
    && Vacant(g.board, Square(4, 3))
    && At(g.board, Square(4, 6)) == Piece(Pawn, Black)
  }

  lemma NewGameKingsPawnAtHome()
    ensures KingsPawnAtHome(NewGame())
  {
    InitialLayout(Square(4, 1));
    InitialLayout(Square(4, 2));
    InitialLayout(Square(4, 3));
    InitialLayout(Square(4, 6));
  }

  /**
   With the king's pawn at home and the two squares ahead of it empty, the
   double step is legal and lands the pawn on (4, 3); Black's pawn on (4, 6)
   then cannot reach (4, 3).
   */
  lemma OpeningDoubleStep(g: GameState)
    requires KingsPawnAtHome(g)
    ensures IsMoveValid(g.board, Square(4, 1), Square(4, 3))
    ensures var b := MovePiece(g, Square(4, 1), Square(4, 3)).board;
            && At(b, Square(4, 3)) == Piece(Pawn, White)
            && At(b, Square(4, 1)) == Empty
            && !IsMoveValid(b, Square(4, 6), Square(4, 3))
  {
    assert PawnMoveValid(g.board, Square(4, 1), Square(4, 3));
    var b := MovePiece(g, Square(4, 1), Square(4, 3)).board;
    assert At(b, Square(4, 6)) == Piece(Pawn, Black);
  }

  /** The rook on (0, 0) cannot pass its own pawn on (0, 1), but can once that square is empty. */
  lemma RookBlockedThenFree()
    ensures !IsMoveValid(InitializeBoard(), Square(0, 0), Square(0, 5))
    ensures IsMoveValid(Put(InitializeBoard(), Square(0, 1), Empty), Square(0, 0), Square(0, 5))
  {
    var b := InitializeBoard();
    var b' := Put(b, Square(0, 1), Empty);
    InitialLayout(Square(0, 0));
    InitialLayout(Square(0, 1));
    RookMoves(b, Square(0, 0), Square(0, 5));
    assert OnRookPath(Square(0, 0), Square(0, 5), Square(0, 1));
    RookMoves(b', Square(0, 0), Square(0, 5));
    forall s | OnRookPath(Square(0, 0), Square(0, 5), s) ensures Vacant(b', s) {
      InitialLayout(s);
    }
    InitialLayout(Square(0, 5));
  }

  /** The Queen starts on column 3 and the King on column 4, for both colours. */
  lemma RoyalSquares()
    ensures At(InitializeBoard(), Square(3, 0)) == Piece(Queen, White)
    ensures At(InitializeBoard(), Square(4, 0)) == Piece(King, White)
    ensures At(InitializeBoard(), Square(3, 7)) == Piece(Queen, Black)
    ensures At(InitializeBoard(), Square(4, 7)) == Piece(King, Black)
  {
    InitialLayout(Square(3, 0));
    InitialLayout(Square(4, 0));
    InitialLayout(Square(3, 7));
    InitialLayout(Square(4, 7));
  }
}

=== FILE: squares.dfy ===
/**
 Squares of the 8x8 board and the plane geometry the sliding pieces use.
 A square is a column `x` and a row `y`, both in 0..7; the board is read as
 `board[y][x]`, and White's pieces start on the rows with small `y`.
 */
module Squares {

  /** A row or column index; clicks are assumed to have been converted to this range already. */
  type Coord = i: int | 0 <= i < 8

  /** A square: column `x`, row `y`. */
  datatype Square = Square(x: Coord, y: Coord)

  /** The magnitude of `n`: multiplied by the sign it gives `n` back, and it is positive exactly when `n` is not zero. */
  function Abs(n: int): (r: nat)
    ensures Sign(n) * r == n
    ensures Sign(r) == Sign(n) * Sign(n)
  {
    if n < 0 then -n else n
  }

  /** The unit step of the bishop's scan towards `n`: 1 when `n` is positive, -1 when it is negative, 0 when it is zero. */
  function Sign(n: int): int {
    if n > 0 then 1 else if n < 0 then -1 else 0
  }

  function Min(a: int, b: int): int {
    if a < b then a else b
  }

  function Max(a: int, b: int): int {
    if a < b then b else a
  }

  /** `v` lies strictly between `a` and `c`, whichever of the two is larger. */
  predicate StrictlyBetween(a: int, v: int, c: int) {
    (a < v < c) || (c < v < a)
  }

  /** Square `s` lies strictly between `from` and `to`, which share a column or a row. */
  predicate OnRookPath(from: Square, to: Square, s: Square) {
    || (s.x == from.x == to.x && StrictlyBetween(from.y, s.y, to.y))
    || (s.y == from.y == to.y && StrictlyBetween(from.x, s.x, to.x))
  }

  /** Square `s` lies strictly between `from` and `to` on the diagonal through `from`. */
  predicate OnDiagonalPath(from: Square, to: Square, s: Square) {
    && StrictlyBetween(from.x, s.x, to.x)
    && StrictlyBetween(from.y, s.y, to.y)
    && Abs(s.x - from.x) == Abs(s.y - from.y)
  }

  /** Row-major order: `a` is visited before `b` when the rows are scanned top to bottom, each left to right. */
  predicate Before(a: Square, b: Square) {
    a.y < b.y || (a.y == b.y && a.x < b.x)
  }

  /** Every square comes strictly after its predecessor in row-major order (so none appears twice). */
  predicate RowMajor(squares: seq<Square>) {
    forall i, j :: 0 <= i < j < |squares| ==> Before(squares[i], squares[j])
  }

  /** Row-major order is a strict order, so a row-major sequence repeats no square. */
  lemma RowMajorDistinct(squares: seq<Square>)
    requires RowMajor(squares)
    ensures forall i, j :: 0 <= i < |squares| && 0 <= j < |squares| && i != j ==> squares[i] != squares[j]
  {
    forall i, j | 0 <= i < |squares| && 0 <= j < |squares| && i != j
      ensures squares[i] != squares[j]
    {
      if i < j {
        assert Before(squares[i], squares[j]);
      } else {
        assert Before(squares[j], squares[i]);
      }
    }
  }

  /** Two row-major runs, the first wholly before the second, join into one. */
  lemma RowMajorJoin(a: seq<Square>, c: seq<Square>)
    requires RowMajor(a) && RowMajor(c)
    requires forall i, j :: 0 <= i < |a| && 0 <= j < |c| ==> Before(a[i], c[j])
    ensures RowMajor(a + c)
  {
    var r := a + c;
    forall i, j | 0 <= i < j < |r| ensures Before(r[i], r[j]) {
      if j < |a| {
        assert r[i] == a[i] && r[j] == a[j];
      } else if i < |a| {
        assert r[i] == a[i] && r[j] == c[j - |a|];
      } else {
        assert r[i] == c[i - |a|] && r[j] == c[j - |a|];
      }
    }
  }
}
